=== FILE: README.md ===
# GitHub link preview: a Dafny model

The browser extension shows a small card with a repository's details when
the mouse rests on a link to a GitHub repository. This project models its
content script (`content.js`) and the image helper it ships with
(`scripts/image_resizer.py`), and proves properties of both models.

**Content script.**
- *Which links qualify.* A hovered element qualifies when its tag name
  lower-cases to `a` and its `href` matches
  `https:\/\/github\.com\/[^\/]+\/[^\/]+\/?$`. The expression has no start
  anchor, so it is a suffix test. `LinkMatch.RepoSuffix` states what the
  expression accepts. `LinkMatch.MatchRepoSuffix` reads a match off the
  href deterministically. The two are proved to agree in both directions.
- *Owner and repository.* These are entries 3 and 4 of `href.split("/")`.
  `Strings.Split` models JavaScript's split and is proved inverse to
  `Strings.Join`.
- *Fetching the details.* `fetchGitHubRepoInfo` takes the fetch outcome as
  an input, in `RepoInfo`. The model covers the non-ok response, the body
  that is not JSON, the JSON `null`, the missing `owner` and the description
  placeholder.
- *Popup life cycle.* `PopupLifecycle` is a state machine over four events:
  - a hover;
  - the 100 ms delay timer firing;
  - a fetch completing;
  - a `mouseout` reaching a link's listeners.

  The state records:
  - the `popupTimeout` handle;
  - the pending timers;
  - `currentPopup`;
  - every popup created;
  - the popups still attached;
  - the fetches in flight.

**Image helper.**
- the `topleft` and `center` crop boxes, using Python's floor division;
- the output file name, built with POSIX `os.path.splitext`;
- the command line: argument count, integer parsing, the default crop mode
  and the exit status.

A comment in `content.js` says "Make sure only one popup is open at a
time". The code does not guarantee this, and the model follows the code.
Suppose a second delay timer fires before the first fetch has returned.
Both fetches then end by creating and attaching a popup, and the second
does not remove the first. `PopupLifecycle.TwoPopupsCoexist` proves this for
every qualifying link and every successful response. Only the pending delay
timer is unique (`PopupLifecycle.AtMostOneTimer`).

The expression also accepts links to other sites whose path ends in a
repository URL, and for those links the split reads the wrong entries.
`LinkMatch.ForeignPrefixMisread` proves this for links of the shape
`https://<h>/<y>/https://github.com/<o>/<r>` (one path segment `<y>` on the
other site): the "owner" is `<y>` and the "repository" is `https:`. Other
shapes misread differently; with no segment between the host and the
embedded URL, for instance, entries 3 and 4 are `https:` and the empty string.

## Model

| member | source | states |
|---|---|---|
| Strings.ToLowerIsA | content.js:13 | `tagName.toLowerCase() === "a"` holds exactly for the tag names `a` and `A` |
| LinkMatch.MatchSound | content.js:12-15 | every match the deterministic reading reports is a match of the link expression: non-empty, slash-free owner and repository after `https://github.com/`, at the end of the href, with an optional trailing `/` |
| LinkMatch.MatchComplete | content.js:12-15 | every match of the link expression is the one the deterministic reading reports, so a match is unique |
| LinkMatch.Qualifies | content.js:12-15 | the hover test itself; it has no ensures, and `LinkMatch.QualifiesIff` states its meaning |
| LinkMatch.QualifiesIff | content.js:12-15 | an element passes the hover test if and only if its tag is `a`/`A` and its href ends with a repository URL, with an optional trailing `/` |
| LinkMatch.ForeignPrefixMisread | content.js:12-15 | an href `https://<h>/<y>/https://github.com/<o>/<r>` passes the hover test and matches `o`/`r`, yet entries 3 and 4 of its split are `y` and `https:` |
| Strings.Split | content.js:33 | JavaScript's `split` with a one-character separator; its ensures says only that there is at least one piece, and `Strings.JoinSplit` and `Strings.SplitJoin` state its meaning |
| Strings.SplitPiecesFree | content.js:33 | no piece of a split contains the separator, so together with `Strings.JoinSplit` the pieces are exactly the separator-free runs between separators |
| Strings.JoinSplit | content.js:33 | joining the pieces of `split("/")` with `/` gives back the string |
| Strings.SplitJoin | content.js:33 | splitting a `/`-joined list of slash-free pieces gives back the pieces |
| LinkMatch.OwnerRepo | content.js:33-35 | entries 3 and 4 of the href split on `/`, `undefined` past the end; it has no ensures, and `LinkMatch.OwnerRepoRoundTrip`, `LinkMatch.OwnerRepoDefined` and `LinkMatch.ForeignPrefixMisread` state its properties |
| LinkMatch.OwnerRepoRoundTrip | content.js:33-35 | for `https://github.com/<o>/<r>`, with or without a trailing `/`, entries 3 and 4 of the split are exactly `o` and `r` |
| LinkMatch.OwnerRepoOfMatched | content.js:33-35 | on any href ending in a repository URL without a trailing `/`, entries 3 and 4 exist; they are the owner and repository when nothing before the URL contains a `/` |
| LinkMatch.OwnerRepoOfMatchedSlash | content.js:33-35 | the same for an href ending in a repository URL followed by `/` |
| LinkMatch.OwnerRepoDefined | content.js:33-35 | on every href that passes the hover test, neither entry 3 nor entry 4 is `undefined` |
| RepoInfo.ApiUrl | content.js:73 | the request URL template; it has no ensures, and `RepoInfo.ApiUrlRoundTrip` states its property |
| RepoInfo.ApiUrlRoundTrip | content.js:73 | the request URL splits into `https:`, ``, `api.github.com`, `repos`, owner, repository, so it names the owner and repository it was built from |
| RepoInfo.DescriptionOrPlaceholder | content.js:82 | a non-empty description is kept; a missing, `null` or empty one becomes "No description available" |
| RepoInfo.FetchRepoInfo | content.js:72-92 | a record comes back exactly when the response is ok, its body parses to a non-null value and it has an owner; the record copies full name, stars, owner login, avatar URL and push time, and it carries the description or the placeholder |
| PopupLifecycle.OnMouseOver | content.js:10-30 | a hover on a non-qualifying element changes nothing; a qualifying hover cancels the pending timer named by `popupTimeout`, sets one new timer for the link and records its handle, and leaves the popups and fetches alone |
| PopupLifecycle.OnTimerFire | content.js:21-28 | a firing timer stops being pending, the current popup is detached and `currentPopup` becomes null, and a fetch for the timer's link starts; `popupTimeout` keeps the spent handle; an unknown handle changes nothing |
| PopupLifecycle.OnFetchDone | content.js:37-48 | a successful fetch makes a new popup current and attaches it, with its `mouseout` listener on the link; a `null` result only ends the fetch; timers and the other fetches in flight, with their links, are untouched |
| PopupLifecycle.OnMouseOut | content.js:46-48 | the link's `mouseout` detaches every popup created for that link, keeps every other popup, and leaves `currentPopup` and everything else unchanged |
| PopupLifecycle.MouseOutIdempotent | content.js:46-48 | a second `mouseout` on the same link changes nothing more |
| PopupLifecycle.InitInv | content.js:5-8 | the page starts in a state satisfying the invariant: at most the `popupTimeout` timer pending, pending work only for qualifying links, attached and current popups are created ones |
| PopupLifecycle.StepInv | content.js:10-48 | every event preserves the invariant |
| PopupLifecycle.RunInv | content.js:10-48 | every sequence of events preserves the invariant |
| PopupLifecycle.AtMostOneTimer | content.js:18-21 | in every reachable state at most one delay timer is pending |
| PopupLifecycle.MouseOverSingleTimer | content.js:18-21 | after a qualifying hover exactly one timer is pending, and it is for the hovered link |
| PopupLifecycle.HoverTwiceOneTimer | content.js:18-21 | two hovers within the delay leave only the second link's timer pending; the first handle no longer fires |
| PopupLifecycle.RequestUrl | content.js:33-37 | the URL fetched for a link, with `undefined` interpolated for a missing entry; it has no ensures, and `PopupLifecycle.TimerFetchUrl` states its property |
| PopupLifecycle.TimerFetchUrl | content.js:33-37 | the fetch a pending timer starts requests the API URL of the owner and repository read off its link, and neither is `undefined` |
| PopupLifecycle.MouseOutAfterCreation | content.js:39-48 | leaving the link right after its popup appears detaches the popup, but `currentPopup` still names it |
| PopupLifecycle.TwoPopupsCoexist | content.js:4-48 | hovering a link twice, with both delays elapsing before the first fetch returns, attaches two popups at once |
| ImageResizer.Crop | scripts/image_resizer.py:15-25 | `topleft` cuts from the origin; `center` puts the left/top edge at the floor of half the surplus; both boxes have the requested width and height; any other mode is the `ValueError` with its message |
| ImageResizer.CropInside | scripts/image_resizer.py:15-22 | when the scaled image is at least the requested size, the box lies inside it |
| ImageResizer.CenterBalanced | scripts/image_resizer.py:17-22 | a centred box leaves equal margins, or one more pixel on the right or bottom when the surplus is odd |
| ImageResizer.SplitExt | scripts/image_resizer.py:29 | stem and extension concatenate to the path; the extension is empty or a `.` followed by text without `.` or `/`; there is an extension exactly when the last `.` lies in the last path component and something other than dots precedes it there |
| ImageResizer.OutputName | scripts/image_resizer.py:29-30 | the output file name; it has no ensures, and `ImageResizer.SplitExtOfOutputName` and `ImageResizer.SizeTagRoundTrip` state its properties |
| Strings.IntToString | scripts/image_resizer.py:30 | Python's `str` of an integer in its shortest form: a `-` exactly when the number is negative, then one or more digits with no leading zero unless the number is 0; `Strings.ParseIntToString` states that `int` reads it back |
| Strings.ParseInt | scripts/image_resizer.py:43 | Python's `int` on a decimal string: it gives a number exactly when the text is one or more ASCII digits, optionally after a single `+` or `-`, and fails (`ValueError`) on anything else; `Strings.ParseIntToString` states that it inverts `str` |
| ImageResizer.SizeTagRoundTrip | scripts/image_resizer.py:30 | the `_<w>x<h>` tag splits on `x` into two parts that parse back to `w` and `h` |
| Strings.ParseIntToString | scripts/image_resizer.py:30 | Python's `int` reads back what `str` wrote for every integer |
| ImageResizer.SplitExtOfOutputName | scripts/image_resizer.py:29-30 | `splitext` of the output name gives the input's stem plus the size tag, and the input's extension |
| ImageResizer.ParseArgs | scripts/image_resizer.py:37-44 | fewer than four `argv` entries is the usage error; otherwise parsing succeeds exactly when width and height are integers; the crop mode is `argv[4]` when present, else `center` |
| ImageResizer.ResizeImage | scripts/image_resizer.py:6-33 | a failure while opening or scaling is reported as is; an invalid mode after a successful scale is the crop-mode error; with a valid mode the image is saved exactly when cropping and saving raise nothing, and otherwise their error is reported; a save names the output file after the input and size and uses the crop box for the mode |
| ImageResizer.Cli | scripts/image_resizer.py:36-50 | too few arguments give the usage error; a width or height that is not an integer gives the uncaught `ValueError`; the image is saved exactly when the sizes parse, the library succeeds and the mode is `topleft` or `center`; a saved file is named from `argv[1]` and the parsed width and height |
| ImageResizer.ExitStatus | scripts/image_resizer.py:37-50 | the exit status of an outcome (0 after saving, 1 on the usage and `except` paths); it has no ensures, and `ImageResizer.ExitStatusOfCli` states its meaning |
| ImageResizer.ExitStatusOfCli | scripts/image_resizer.py:36-50 | the script exits with 0 exactly when there are at least three arguments, width and height are integers, the library opens, scales, crops and saves the image, and the mode (`argv[4]`, default `center`) is `topleft` or `center`; every other run exits with 1 |
| ImageResizer.DefaultModeIsCenter | scripts/image_resizer.py:44 | with exactly three arguments and integer sizes, the image is saved with the centred box |

## Left out

- Rendering: `generatePopupDOM`'s markup, `setupPopupPosition`, the `console` output and the script's `print`s are left out. They produce no state the model tracks. A `null` record is modelled only by its effect: rendering it throws, so no popup appears.
- Dates: `toLocaleString` of the push time depends on the locale. The record keeps the raw `pushed_at` value.
- Network: `fetch` and `response.json()` are left out. Their outcome is an input (`RepoInfo.Response`).
- Fetch steps: awaiting the response and awaiting its body form one event. Nothing the model tracks changes between the two.
- JSON values: `full_name`, `description`, `pushed_at` and the owner's fields are strings or absent, `stargazers_count` is an integer or absent, and `owner` is an object or absent. Other JSON types in these fields, such as a numeric description, are not modelled.
- PopupLifecycle.Element: an element's tag and `href` are taken as fixed from the hover to the timer firing, and `href` is a string (HTML `<a>` only). The source reads `target.href` again when the timer fires, so a page that rewrites the href during the delay would have the new href split; and an SVG `<a>`, whose `href` is not a string, makes the `match` call throw. Neither is modelled, and `PopupLifecycle.TimerFetchUrl` relies on the snapshot.
- Timing: the 100 ms delay and the interleaving of timers and fetches are free. Any event order is allowed, which covers every timing the browser can produce.
- Event bubbling: a `mouseout` names the element whose listeners run. Bubbling from descendants is not modelled. A hover on an element inside a link is a hover on that element.
- Case folding: `toLowerCase` is modelled for ASCII only. No non-ASCII character lower-cases to `a`, so the hover test is unaffected.
- Imaging library: opening, scaling (the floating-point `ratio`, `int` truncation, LANCZOS), cropping and saving are done by PIL. Two inputs stand for its work: the scaled size or the error from opening and scaling, and the error (if any) from cropping and saving. Which names or files make PIL fail, such as a name without an extension, is not modelled.
- Python `int`: only an optional sign followed by ASCII digits is modelled. Surrounding whitespace, `_` separators and non-ASCII digits are not.
- Paths: `splitext` is modelled as on POSIX, with `/` as the only separator.
- Other files: `scripts/resize_assets.py`, `options.js` and `popup.js` are not part of this model.

=== FILE: image_resizer.dfy ===
/** The asset helper scripts/image_resizer.py: the crop box cut out of the
    scaled image, the output file name, and the command-line front end.
    Opening, scaling and saving the image are done by the imaging library
    and are not modelled; two inputs stand for that work: the scaled size
    (or the error from opening and scaling) and the error, if any, from
    cropping and saving. */
module ImageResizer {
  import opened Wrappers
  import opened Strings

  const TopLeft := "topleft"
  const Center := "center"
  const InvalidModeMessage := "Invalid crop mode. Please use 'topleft' or 'center'"

  /** A crop rectangle `(left, top, right, bottom)` in pixels; it may reach
      outside the image. */
  datatype CropBox = CropBox(left: int, top: int, right: int, bottom: int)

  /** The box cut from a scaled image of `nw` by `nh` pixels to get a `w` by
      `h` result: the top-left corner, or the middle with Python's floor
      division splitting the surplus. Any other mode is a `ValueError`. */
  function Crop(nw: int, nh: int, w: int, h: int, mode: string): (r: Result<CropBox, string>)
    ensures r.Err? <==> mode != TopLeft && mode != Center
    ensures r.Err? ==> r.error == InvalidModeMessage
    ensures r.Ok? ==> r.value.right - r.value.left == w && r.value.bottom - r.value.top == h
    ensures mode == TopLeft ==> r.Ok? && r.value.left == 0 && r.value.top == 0
    ensures mode == Center ==> r.Ok? && 2 * r.value.left <= nw - w < 2 * r.value.left + 2
    ensures mode == Center ==> r.Ok? && 2 * r.value.top <= nh - h < 2 * r.value.top + 2
  {
    if mode == TopLeft then Ok(CropBox(0, 0, w, h))
    else if mode == Center then
      var left := (nw - w) / 2;
      var top := (nh - h) / 2;
      Ok(CropBox(left, top, left + w, top + h))
    else Err(InvalidModeMessage)
  }

  /** When the scaled image covers the requested size, the box lies inside
      it, in either mode. */
  lemma CropInside(nw: int, nh: int, w: int, h: int, mode: string)
    requires 0 <= w <= nw && 0 <= h <= nh
    requires Crop(nw, nh, w, h, mode).Ok?
    ensures var b := Crop(nw, nh, w, h, mode).value;
            0 <= b.left <= b.right <= nw && 0 <= b.top <= b.bottom <= nh
  {
  }

  /** A centred box leaves equal margins on both sides, or one more pixel on
      the right (bottom) when the surplus is odd. */
  lemma CenterBalanced(nw: int, nh: int, w: int, h: int)
    ensures var b := Crop(nw, nh, w, h, Center).value;
            && (nw - b.right == b.left || nw - b.right == b.left + 1)
            && (nh - b.bottom == b.top || nh - b.bottom == b.top + 1)
  {
  }

  /** Every `.` in `s`. */
  predicate AllDots(s: string) {
    forall i :: 0 <= i < |s| ==> s[i] == '.'
  }

  /** Where the last path component starts: just after the last `/`. */
  function BaseStart(p: string): (start: nat)
    ensures start <= |p|
    ensures start > 0 ==> p[start - 1] == '/'
  {
    match LastIndexOf(p, '/')
    case None => 0
    case Some(s) => s + 1
  }

  /** POSIX `os.path.splitext`: the extension runs from the last `.` to the
      end, provided that `.` lies in the last path component and is not
      preceded there by dots only (so `.bashrc` has no extension). */
  function SplitExt(p: string): (r: (string, string))
    ensures r.0 + r.1 == p
    ensures r.1 == "" || (r.1[0] == '.' && Free(r.1[1..], '.') && Free(r.1, '/'))
    ensures r.1 != "" ==> BaseStart(p) <= |r.0| && !AllDots(r.0[BaseStart(p)..])
    ensures r.1 == "" ==>
              || LastIndexOf(p, '.').None?
              || LastIndexOf(p, '.').value < BaseStart(p)
              || AllDots(p[BaseStart(p)..LastIndexOf(p, '.').value])
  {
    var start := BaseStart(p);
    match LastIndexOf(p, '.')
    case None => (p, "")
    case Some(d) =>
      if d >= start && !AllDots(p[start..d]) then
        LastIndexOfLast(p, '.');
        SplitExtTail(p, d);
        (p[..d], p[d..])
      else (p, "")
  }

  /** Past the last `.`, and past a `.` that follows the last `/`, there is
      neither. */
  lemma SplitExtTail(p: string, d: nat)
    requires LastIndexOf(p, '.') == Some(d) && d >= BaseStart(p)
    ensures Free(p[d + 1..], '.') && Free(p[d..], '/')
  {
    LastIndexOfLast(p, '.');
    match LastIndexOf(p, '/')
    case None =>
    case Some(s) =>
      LastIndexOfLast(p, '/');
      assert p[d..] == p[s + 1..][d - s - 1..];
  }

  /** The part of the output name between the stem and the extension:
      `_<w>x<h>`. */
  function SizeTag(w: int, h: int): string {
    "_" + IntToString(w) + "x" + IntToString(h)
  }

  /** `f"{filename}_{w}x{h}{ext}"` with `filename, ext` from `splitext`. */
  function OutputName(inputPath: string, w: int, h: int): string {
    var (stem, ext) := SplitExt(inputPath);
    stem + SizeTag(w, h) + ext
  }

  lemma IntToStringFree(n: int, c: char)
    requires c == '.' || c == '/' || c == 'x' || c == '_'
    ensures Free(IntToString(n), c)
  {
    var s := IntToString(n);
    assert forall i :: 0 <= i < |s| ==> s[i] != c;
  }

  lemma SizeTagFree(w: int, h: int)
    ensures Free(SizeTag(w, h), '.') && Free(SizeTag(w, h), '/')
  {
    IntToStringFree(w, '.');
    IntToStringFree(w, '/');
    IntToStringFree(h, '.');
    IntToStringFree(h, '/');
  }

  /** The size tag reads back as the two numbers it was written from. */
  lemma SizeTagRoundTrip(w: int, h: int)
    ensures SizeTag(w, h)[0] == '_'
    ensures var parts := Split(SizeTag(w, h)[1..], 'x');
            |parts| == 2 && ParseInt(parts[0]) == Some(w) && ParseInt(parts[1]) == Some(h)
  {
    var a := IntToString(w);
    var b := IntToString(h);
    assert SizeTag(w, h)[1..] == a + "x" + b;
    IntToStringFree(w, 'x');
    IntToStringFree(h, 'x');
    SplitSnoc(a, b, 'x');
    SplitFree(a, 'x');
    ParseIntToString(w);
    ParseIntToString(h);
  }

  /** The output file keeps the input's extension, and its stem is the
      input's stem followed by the size tag: `splitext` of the output name
      takes it apart again. */
  lemma SplitExtOfOutputName(inputPath: string, w: int, h: int)
    ensures SplitExt(OutputName(inputPath, w, h))
            == (SplitExt(inputPath).0 + SizeTag(w, h), SplitExt(inputPath).1)
  {
    var (stem, ext) := SplitExt(inputPath);
    var tag := SizeTag(w, h);
    SizeTagFree(w, h);
    if ext == "" {
      OutputNameNoExt(inputPath, tag);
    } else {
      OutputNameWithExt(stem, ext, tag);
    }
  }

  /** Appending text without `.` or `/` to a name without an extension
      leaves it without one. */
  lemma OutputNameNoExt(p: string, tag: string)
    requires SplitExt(p).1 == "" && Free(tag, '.') && Free(tag, '/')
    ensures SplitExt(p + tag) == (p + tag, "")
  {
    var out := p + tag;
    LastIndexOfAppend(p, tag, '/');
    LastIndexOfAppend(p, tag, '.');
    assert BaseStart(out) == BaseStart(p);
    match LastIndexOf(p, '.')
    case None =>
    case Some(d) =>
      if d >= BaseStart(p) {
        assert out[BaseStart(p)..d] == p[BaseStart(p)..d];
      }
  }

  /** Text without `/` at the end leaves the last path component's start
      where it was. */
  lemma BaseStartAppend(a: string, b: string)
    requires Free(b, '/')
    ensures BaseStart(a + b) == BaseStart(a)
  {
    LastIndexOfAppend(a, b, '/');
  }

  /** The last `.` of `stem + tag + ext` is the one opening `ext`. */
  lemma ExtensionDot(stem: string, tag: string, ext: string)
    requires ext != "" && ext[0] == '.' && Free(ext[1..], '.')
    ensures LastIndexOf(stem + tag + ext, '.') == Some(|stem + tag|)
  {
    assert stem + tag + ext == (stem + tag) + ['.'] + ext[1..];
    LastIndexOfAt(stem + tag, ext[1..], '.');
  }

  /** Inserting text without `.` or `/`, that starts with a non-dot,
      between the stem and the extension keeps the extension. */
  lemma OutputNameWithExt(stem: string, ext: string, tag: string)
    requires ext != "" && ext[0] == '.' && Free(ext[1..], '.') && Free(ext, '/')
    requires Free(tag, '.') && Free(tag, '/') && |tag| > 0 && tag[0] != '.'
    ensures SplitExt(stem + tag + ext) == (stem + tag, ext)
  {
    var out := stem + tag + ext;
    var d := |stem + tag|;
    ExtensionDot(stem, tag, ext);
    FreeAppend(tag, ext, '/');
    assert out == stem + (tag + ext);
    BaseStartAppend(stem, tag + ext);
    var start := BaseStart(out);
    assert start <= |stem|;
    assert out[start..d][|stem| - start] == out[|stem|] == tag[0];
    assert out[..d] == stem + tag;
    assert out[d..] == ext;
  }

  /** The command-line arguments after a successful parse. */
  datatype Args = Args(inputPath: string, width: int, height: int, cropMode: string)

  /** How the script ends: the usage message, an uncaught `ValueError` from
      `int`, an error caught and printed by the `try`, or a saved file with
      the box that was cut. */
  datatype Outcome =
    | UsageError
    | BadNumber
    | Failed(message: string)
    | Saved(box: CropBox, outputPath: string)

  /** `sys.argv` handling: at least an input path, a width and a height are
      needed; the crop mode defaults to `center`. */
  function ParseArgs(argv: seq<string>): (r: Result<Args, Outcome>)
    ensures |argv| < 4 ==> r == Err(UsageError)
    ensures |argv| >= 4 ==>
              (r.Ok? <==> ParseInt(argv[2]).Some? && ParseInt(argv[3]).Some?)
    ensures |argv| >= 4 && r.Err? ==> r.error == BadNumber
    ensures r.Ok? ==>
              && r.value.inputPath == argv[1]
              && Some(r.value.width) == ParseInt(argv[2])
              && Some(r.value.height) == ParseInt(argv[3])
              && r.value.cropMode == ModeOf(argv)
  {
    if |argv| < 4 then Err(UsageError)
    else
      match (ParseInt(argv[2]), ParseInt(argv[3]))
      case (Some(w), Some(h)) => Ok(Args(argv[1], w, h, ModeOf(argv)))
      case _ => Err(BadNumber)
  }

  /** The crop mode the script uses for `argv`: `argv[4]` when given, else
      `center`. */
  function ModeOf(argv: seq<string>): string {
    if |argv| > 4 then argv[4] else Center
  }

  /** `resize_image` with the library's work as inputs: `scaled` is what
      opening and scaling the image gives (its size, or the message of the
      exception raised), and `saveError` the message of an exception raised
      while cropping or saving, if any. The crop mode is checked after
      scaling, so a library failure there wins over an invalid mode; the
      crop and the save run only after the mode check. */
  function ResizeImage(args: Args, scaled: Result<(int, int), string>, saveError: Option<string>): (r: Outcome)
    ensures scaled.Err? ==> r == Failed(scaled.error)
    ensures scaled.Ok? && Crop(scaled.value.0, scaled.value.1, args.width, args.height, args.cropMode).Err? ==>
              r == Failed(InvalidModeMessage)
    ensures scaled.Ok? && Crop(scaled.value.0, scaled.value.1, args.width, args.height, args.cropMode).Ok? ==>
              (r.Saved? <==> saveError.None?)
    ensures saveError.Some? && scaled.Ok? ==>
              (Crop(scaled.value.0, scaled.value.1, args.width, args.height, args.cropMode).Ok? ==>
                 r == Failed(saveError.value))
    ensures r.Saved? ==> scaled.Ok? && r.outputPath == OutputName(args.inputPath, args.width, args.height)
    ensures r.Saved? ==> Crop(scaled.value.0, scaled.value.1, args.width, args.height, args.cropMode) == Ok(r.box)
  {
    match scaled
    case Err(message) => Failed(message)
    case Ok((nw, nh)) =>
      match Crop(nw, nh, args.width, args.height, args.cropMode)
      case Err(message) => Failed(message)
      case Ok(box) =>
        match saveError
        case Some(message) => Failed(message)
        case None => Saved(box, OutputName(args.inputPath, args.width, args.height))
  }

  /** The script run with `argv`, where `scaled` and `saveError` are what
      the library does with the image at `argv[1]`. */
  function Cli(argv: seq<string>, scaled: Result<(int, int), string>, saveError: Option<string>): (r: Outcome)
    ensures |argv| < 4 ==> r == UsageError
    ensures |argv| >= 4 && (ParseInt(argv[2]).None? || ParseInt(argv[3]).None?) ==> r == BadNumber
    ensures r.Saved? <==>
              && |argv| >= 4 && ParseInt(argv[2]).Some? && ParseInt(argv[3]).Some?
              && scaled.Ok? && (ModeOf(argv) == TopLeft || ModeOf(argv) == Center)
              && saveError.None?
    ensures r.Saved? ==>
              && |argv| >= 4 && ParseInt(argv[2]).Some? && ParseInt(argv[3]).Some?
              && r.outputPath == OutputName(argv[1], ParseInt(argv[2]).value, ParseInt(argv[3]).value)
  {
    match ParseArgs(argv)
    case Err(outcome) => outcome
    case Ok(args) => ResizeImage(args, scaled, saveError)
  }

  /** The process exit status: 0 after saving, 1 otherwise (the usage path
      and the `except` path call `sys.exit(1)`; an uncaught exception also
      ends with status 1). */
  function ExitStatus(o: Outcome): int
  {
    if o.Saved? then 0 else 1
  }

  /** The script exits with status 0 exactly when it gets at least three
      arguments, the width and height are integers, the library opens,
      scales, crops and saves the image, and the crop mode is `topleft` or
      `center`; every other run exits with status 1. */
  lemma ExitStatusOfCli(argv: seq<string>, scaled: Result<(int, int), string>, saveError: Option<string>)
    ensures ExitStatus(Cli(argv, scaled, saveError)) == 0 <==>
              && |argv| >= 4 && ParseInt(argv[2]).Some? && ParseInt(argv[3]).Some?
              && scaled.Ok? && saveError.None?
              && (ModeOf(argv) == TopLeft || ModeOf(argv) == Center)
    ensures ExitStatus(Cli(argv, scaled, saveError)) == 1 <==> !Cli(argv, scaled, saveError).Saved?
  {
  }

  /** With exactly the three required arguments the box is the centred one. */
  lemma DefaultModeIsCenter(argv: seq<string>, nw: int, nh: int)
    requires |argv| == 4 && ParseInt(argv[2]).Some? && ParseInt(argv[3]).Some?
    ensures var r := Cli(argv, Ok((nw, nh)), None);
            && r.Saved?
            && r.box == Crop(nw, nh, ParseInt(argv[2]).value, ParseInt(argv[3]).value, Center).value
  {
  }
}

=== FILE: link_match.dfy ===
/** Which hovered elements count as GitHub repository links, and how the
    owner and repository names are read off such a link (content.js). */
module LinkMatch {
  import opened Wrappers
  import opened Strings

  const Scheme := "https:"
  const GitHubHost := "github.com"

  /** `https://github.com`, without the slash that follows it in a link.
      The two slashes after the scheme are written as separate pieces so
      that the proofs about `Split` can peel one piece at a time. */
  const GitHubRoot := Scheme + "/" + "/" + GitHubHost

  /** `https://github.com/<o>/<r>`. */
  function RepoUrl(o: string, r: string): string {
    GitHubRoot + "/" + o + "/" + r
  }

  /** The regular expression `https:\/\/github\.com\/[^\/]+\/[^\/]+\/?$`
      finds a match in `href` with owner segment `o` and repository segment
      `r`. The expression has no start anchor, so anything may come before
      the matched text; `$` pins the match to the end of the string. */
  predicate RepoSuffix(href: string, o: string, r: string) {
    && o != [] && r != [] && Free(o, '/') && Free(r, '/')
    && (EndsWith(href, RepoUrl(o, r)) || EndsWith(href, RepoUrl(o, r) + "/"))
  }

  /** A deterministic reading of the same expression: drop one trailing `/`,
      take the last two `/`-separated segments, and check what precedes
      them. */
  function MatchRepoSuffix(href: string): Option<(string, string)> {
    MatchSegments(DropTrailingSlash(href))
  }

  function DropTrailingSlash(href: string): string {
    if |href| > 0 && href[|href| - 1] == '/' then href[..|href| - 1] else href
  }

  /** The last two segments of `body`, when both are non-empty and preceded
      by `https://github.com/`. */
  function MatchSegments(body: string): Option<(string, string)> {
    match LastIndexOf(body, '/')
    case None => None
    case Some(k) =>
      var head := body[..k];
      match LastIndexOf(head, '/')
      case None => None
      case Some(j) =>
        var o := head[j + 1..];
        var r := body[k + 1..];
        if o != [] && r != [] && EndsWith(head[..j], GitHubRoot) then Some((o, r)) else None
  }

  /** The hover test: the tag name lower-cases to "a" and the href matches
      the repository-link expression. */
  predicate Qualifies(tag: string, href: string) {
    ToLower(tag) == "a" && MatchRepoSuffix(href).Some?
  }

  /** A string is the text before an occurrence of `c`, then `c`, then the
      text after it. */
  lemma Unslice(s: string, k: nat, c: char)
    requires k < |s| && s[k] == c
    ensures s == s[..k] + [c] + s[k + 1..]
  {
  }

  /** `x + RepoUrl(o, r)` regrouped to the left. */
  lemma RepoUrlAssoc(x: string, o: string, r: string)
    ensures x + RepoUrl(o, r) == x + GitHubRoot + "/" + o + "/" + r
  {
  }

  lemma MatchSegmentsSound(body: string)
    requires MatchSegments(body).Some?
    ensures var (o, r) := MatchSegments(body).value;
            o != [] && r != [] && Free(o, '/') && Free(r, '/') && EndsWith(body, RepoUrl(o, r))
  {
    var k := LastIndexOf(body, '/').value;
    var head := body[..k];
    var j := LastIndexOf(head, '/').value;
    var o := head[j + 1..];
    var r := body[k + 1..];
    assert MatchSegments(body).value == (o, r);
    LastIndexOfLast(body, '/');
    LastIndexOfLast(head, '/');
    Unslice(body, k, '/');
    Unslice(head, j, '/');
    var x := head[..j][..|head[..j]| - |GitHubRoot|];
    EndsWithSplit(head[..j], GitHubRoot);
    assert body == x + GitHubRoot + "/" + o + "/" + r;
    RepoUrlAssoc(x, o, r);
    EndsWithConcat(x, RepoUrl(o, r));
  }

  /** Every match the deterministic reading reports is a match of the
      expression. */
  lemma MatchSound(href: string)
    requires MatchRepoSuffix(href).Some?
    ensures RepoSuffix(href, MatchRepoSuffix(href).value.0, MatchRepoSuffix(href).value.1)
  {
    var body := DropTrailingSlash(href);
    MatchSegmentsSound(body);
    var (o, r) := MatchSegments(body).value;
    if body != href {
      Unslice(href, |href| - 1, '/');
      assert href == body + "/";
      EndsWithAppend(body, RepoUrl(o, r), "/");
    }
  }

  /** The last segment of a matched URL is not empty, so the URL does not
      end in `/`. */
  lemma NoTrailingSlash(o: string, r: string)
    requires r != [] && Free(r, '/')
    ensures var t := RepoUrl(o, r); t[|t| - 1] != '/'
  {
    var t := RepoUrl(o, r);
    assert t[|t| - 1] == r[|r| - 1];
  }

  lemma MatchSegmentsComplete(x: string, o: string, r: string)
    requires o != [] && r != [] && Free(o, '/') && Free(r, '/')
    ensures MatchSegments(x + RepoUrl(o, r)) == Some((o, r))
  {
    var root := x + GitHubRoot;
    var head := root + "/" + o;
    var body := head + "/" + r;
    RepoUrlAssoc(x, o, r);
    assert x + RepoUrl(o, r) == body;
    LastIndexOfAt(head, r, '/');
    SliceAround(head, r, '/');
    LastIndexOfAt(root, o, '/');
    SliceAround(root, o, '/');
    EndsWithConcat(x, GitHubRoot);
  }

  /** Every match of the expression is the one the deterministic reading
      reports: a match, when there is one, is unique. */
  lemma MatchComplete(href: string, o: string, r: string)
    requires RepoSuffix(href, o, r)
    ensures MatchRepoSuffix(href) == Some((o, r))
  {
    var t := RepoUrl(o, r);
    NoTrailingSlash(o, r);
    if EndsWith(href, t + "/") {
      EndsWithSplit(href, t + "/");
      var x := href[..|href| - |t + "/"|];
      assert href == (x + t) + "/";
      assert DropTrailingSlash(href) == x + t;
      MatchSegmentsComplete(x, o, r);
    } else {
      EndsWithSplit(href, t);
      var x := href[..|href| - |t|];
      assert DropTrailingSlash(href) == href;
      MatchSegmentsComplete(x, o, r);
    }
  }

  /** The hover test holds exactly for an `a` element (in either case) whose
      href ends with `https://github.com/<o>/<r>` or the same followed by a
      `/`, for non-empty, slash-free `o` and `r`. */
  lemma QualifiesIff(tag: string, href: string)
    ensures Qualifies(tag, href) <==>
              (tag == "a" || tag == "A") && exists o, r :: RepoSuffix(href, o, r)
  {
    ToLowerIsA(tag);
    if MatchRepoSuffix(href).Some? {
      MatchSound(href);
    }
    if exists o, r :: RepoSuffix(href, o, r) {
      var o, r :| RepoSuffix(href, o, r);
      MatchComplete(href, o, r);
    }
  }

  /** Element `i` of `href.split("/")`, or `undefined` past its end. */
  function Part(parts: seq<string>, i: nat): Option<string> {
    if i < |parts| then Some(parts[i]) else None
  }

  /** `createNewPopup` reads the owner and repository as entries 3 and 4 of
      the href split on `/`. */
  function OwnerRepo(href: string): (Option<string>, Option<string>) {
    var parts := Split(href, '/');
    (Part(parts, 3), Part(parts, 4))
  }

  /** How a matched link splits: whatever precedes the match, together with
      `https:`, split on its own, then the segments of the matched URL. */
  lemma SplitRepoUrl(x: string, o: string, r: string)
    requires Free(o, '/') && Free(r, '/')
    ensures Split(x + RepoUrl(o, r), '/') == Split(x + Scheme, '/') + ["", GitHubHost, o, r]
  {
    RepoUrlAssoc(x, o, r);
    var a := x + Scheme;
    assert x + GitHubRoot == a + "/" + "/" + GitHubHost;
    assert Free(GitHubHost, '/');
    var sa := Split(a, '/');
    SplitTrailing(a, '/');
    SplitSnoc(a + "/", GitHubHost, '/');
    assert Split(a + "/" + "/" + GitHubHost, '/') == sa + ["", GitHubHost];
    SplitSnoc(a + "/" + "/" + GitHubHost, o, '/');
    assert Split(a + "/" + "/" + GitHubHost + "/" + o, '/') == sa + ["", GitHubHost, o];
    SplitSnoc(a + "/" + "/" + GitHubHost + "/" + o, r, '/');
  }

  /** The same for a matched link with its trailing `/`. */
  lemma SplitRepoUrlSlash(x: string, o: string, r: string)
    requires Free(o, '/') && Free(r, '/')
    ensures Split(x + RepoUrl(o, r) + "/", '/') == Split(x + Scheme, '/') + ["", GitHubHost, o, r, ""]
  {
    SplitTrailing(x + RepoUrl(o, r), '/');
    SplitRepoUrl(x, o, r);
  }

  /** Entries 3 and 4 of a split that ends with the segments of a matched
      URL: they always exist, and when the text before the match has no `/`
      they are the owner and repository. */
  lemma PartsOfMatched(x: string, o: string, r: string, tail: seq<string>)
    ensures var parts := Split(x + Scheme, '/') + ["", GitHubHost, o, r] + tail;
            Part(parts, 3).Some? && Part(parts, 4).Some? &&
            (Free(x, '/') ==> Part(parts, 3) == Some(o) && Part(parts, 4) == Some(r))
  {
    if Free(x, '/') {
      assert Free(Scheme, '/');
      FreeAppend(x, Scheme, '/');
      SplitFree(x + Scheme, '/');
    }
  }

  /** On a matched link without a trailing `/`, entries 3 and 4 of the split
      always exist; when nothing before the matched URL contains a `/` (in
      particular when the href starts with `https://github.com/`), they are
      exactly the owner and repository the expression matched. */
  lemma OwnerRepoOfMatched(x: string, o: string, r: string)
    requires Free(o, '/') && Free(r, '/')
    ensures OwnerRepo(x + RepoUrl(o, r)).0.Some? && OwnerRepo(x + RepoUrl(o, r)).1.Some?
    ensures Free(x, '/') ==> OwnerRepo(x + RepoUrl(o, r)) == (Some(o), Some(r))
  {
    SplitRepoUrl(x, o, r);
    PartsOfMatched(x, o, r, []);
    assert Split(x + Scheme, '/') + ["", GitHubHost, o, r] + [] == Split(x + Scheme, '/') + ["", GitHubHost, o, r];
  }

  /** The same for a matched link with its trailing `/`. */
  lemma OwnerRepoOfMatchedSlash(x: string, o: string, r: string)
    requires Free(o, '/') && Free(r, '/')
    ensures OwnerRepo(x + RepoUrl(o, r) + "/").0.Some? && OwnerRepo(x + RepoUrl(o, r) + "/").1.Some?
    ensures Free(x, '/') ==> OwnerRepo(x + RepoUrl(o, r) + "/") == (Some(o), Some(r))
  {
    SplitRepoUrlSlash(x, o, r);
    PartsOfMatched(x, o, r, [""]);
  }

  /** Entries 3 and 4 exist on every href the expression matches. */
  lemma OwnerRepoOfSuffix(href: string, o: string, r: string)
    requires RepoSuffix(href, o, r)
    ensures OwnerRepo(href).0.Some? && OwnerRepo(href).1.Some?
  {
    var t := RepoUrl(o, r);
    if EndsWith(href, t + "/") {
      EndsWithSplit(href, t + "/");
      var x := href[..|href| - |t + "/"|];
      assert href == x + t + "/";
      OwnerRepoOfMatchedSlash(x, o, r);
    } else {
      EndsWithSplit(href, t);
      var x := href[..|href| - |t|];
      OwnerRepoOfMatched(x, o, r);
    }
  }

  /** On every link that passes the hover test, entries 3 and 4 of the
      split exist, so neither owner nor repository is `undefined`. */
  lemma OwnerRepoDefined(href: string)
    requires MatchRepoSuffix(href).Some?
    ensures OwnerRepo(href).0.Some? && OwnerRepo(href).1.Some?
  {
    MatchSound(href);
    OwnerRepoOfSuffix(href, MatchRepoSuffix(href).value.0, MatchRepoSuffix(href).value.1);
  }

  /** The owner/repository round trip for a direct repository link, with
      or without its trailing `/`. */
  lemma OwnerRepoRoundTrip(o: string, r: string)
    requires Free(o, '/') && Free(r, '/')
    ensures OwnerRepo(RepoUrl(o, r)) == (Some(o), Some(r))
    ensures OwnerRepo(RepoUrl(o, r) + "/") == (Some(o), Some(r))
  {
    OwnerRepoOfMatched("", o, r);
    OwnerRepoOfMatchedSlash("", o, r);
    assert "" + RepoUrl(o, r) == RepoUrl(o, r);
  }

  /** `https://<h>/<y>/https://github.com/<o>/<r>`: a link to another site
      that carries a repository URL at the end of its path. */
  function ForeignLink(h: string, y: string, o: string, r: string): string {
    Scheme + "/" + "/" + h + "/" + y + "/" + RepoUrl(o, r)
  }

  /** Because the expression is not anchored at the start, a link to another
      site whose path ends with a repository URL passes the hover test and
      matches owner `o` and repository `r`, yet the split reads `y` as the
      owner and `https:` as the repository. */
  lemma ForeignPrefixMisread(h: string, y: string, o: string, r: string)
    requires Free(h, '/') && Free(y, '/')
    requires o != [] && r != [] && Free(o, '/') && Free(r, '/')
    ensures MatchRepoSuffix(ForeignLink(h, y, o, r)) == Some((o, r))
    ensures Qualifies("a", ForeignLink(h, y, o, r))
    ensures OwnerRepo(ForeignLink(h, y, o, r)) == (Some(y), Some(Scheme))
  {
    var x := Scheme + "/" + "/" + h + "/" + y + "/";
    var href := ForeignLink(h, y, o, r);
    assert href == x + RepoUrl(o, r);
    MatchSegmentsComplete(x, o, r);
    NoTrailingSlash(o, r);
    assert DropTrailingSlash(href) == href;
    ToLowerIsA("a");
    SplitRepoUrl(x, o, r);
    assert Free(Scheme, '/');
    SplitUrl(Scheme, h, y, Scheme);
  }
}

=== FILE: popup_lifecycle.dfy ===
/** The popup life cycle of content.js as a sequential state machine. The
    page's event loop delivers one event at a time: a hover, a delay timer
    firing, a repository fetch completing, or a `mouseout` reaching an
    element's listeners. Timers, fetches and popups are named by handles
    drawn from one counter. */
module PopupLifecycle {
  import opened Wrappers
  import opened LinkMatch
  import opened RepoInfo

  /** A hovered element: its identity, tag name and `href`. */
  datatype Element = Element(id: nat, tag: string, href: string)

  /** A popup created for the link `target` showing `info`; its `mouseout`
      listener sits on `target`. */
  datatype Popup = Popup(target: nat, info: Info)

  /** The page state the script manipulates.
      `popupTimeout` is the handle last returned by `setTimeout`; the script
      never resets it. `timers` are the delay timers still pending, with the
      link each was set for. `fetches` are the repository
      fetches in flight, with the link each was started for. `popups`
      records every popup ever created and `attached` those still in the
      document. */
  datatype State = State(
    popupTimeout: Option<nat>,
    timers: map<nat, Element>,
    currentPopup: Option<nat>,
    popups: map<nat, Popup>,
    attached: set<nat>,
    fetches: map<nat, Element>,
    nextId: nat)

  datatype Event =
    | MouseOver(element: Element)
    | TimerFire(handle: nat)
    | FetchDone(fetch: nat, response: Response)
    | MouseOut(target: nat)

  /** A fresh page: no timer, no popup. Browsers hand out positive timer
      handles, so every handle is truthy. */
  const Init := State(None, map[], None, map[], {}, map[], 1)

  /** `clearTimeout(popupTimeout)` when `popupTimeout` is set; clearing a
      timer that already fired does nothing. */
  function Cleared(timers: map<nat, Element>, handle: Option<nat>): map<nat, Element> {
    if handle.Some? then timers - {handle.value} else timers
  }

  /** The `mouseover` listener: a qualifying link cancels the pending delay
      timer and sets a new one for itself; any other element changes
      nothing. */
  function OnMouseOver(st: State, el: Element): (st': State)
    ensures !Qualifies(el.tag, el.href) ==> st' == st
    ensures Qualifies(el.tag, el.href) ==>
              && st'.popupTimeout == Some(st.nextId)
              && st.nextId in st'.timers && st'.timers[st.nextId] == el
              && (forall h :: h in st'.timers <==> h == st.nextId || (h in st.timers && Some(h) != st.popupTimeout))
              && (forall h :: h in st'.timers && h != st.nextId ==> st'.timers[h] == st.timers[h])
              && st'.currentPopup == st.currentPopup && st'.popups == st.popups
              && st'.attached == st.attached && st'.fetches == st.fetches
              && st'.nextId > st.nextId
  {
    if !Qualifies(el.tag, el.href) then st
    else
      st.(popupTimeout := Some(st.nextId),
          timers := Cleared(st.timers, st.popupTimeout)[st.nextId := el],
          nextId := st.nextId + 1)
  }

  /** The URL `createNewPopup` requests for a link: owner and repository
      are entries 3 and 4 of the href split on `/`, interpolated into the
      API URL. */
  function RequestUrl(el: Element): string {
    var (owner, repo) := OwnerRepo(el.href);
    ApiUrl(Interpolate(owner), Interpolate(repo))
  }

  /** A delay timer fires: it is no longer pending, the current popup (if
      any) is removed and forgotten, and the fetch for the timer's link
      starts. `popupTimeout` keeps the spent handle. A handle that is not
      pending changes nothing. */
  function OnTimerFire(st: State, h: nat): (st': State)
    ensures h !in st.timers ==> st' == st
    ensures h in st.timers ==>
              && st'.currentPopup == None
              && (forall p :: p in st'.attached <==> p in st.attached && Some(p) != st.currentPopup)
              && st'.timers.Keys == st.timers.Keys - {h}
              && (forall g :: g in st'.timers ==> st'.timers[g] == st.timers[g])
              && st'.fetches.Keys == st.fetches.Keys + {st.nextId}
              && st'.fetches[st.nextId] == st.timers[h]
              && (forall g :: g in st.fetches && g != st.nextId ==> st'.fetches[g] == st.fetches[g])
              && st'.popupTimeout == st.popupTimeout && st'.popups == st.popups
  {
    if h !in st.timers then st
    else
      var attached := if st.currentPopup.Some? then st.attached - {st.currentPopup.value} else st.attached;
      st.(timers := st.timers - {h},
          currentPopup := None,
          attached := attached,
          fetches := st.fetches[st.nextId := st.timers[h]],
          nextId := st.nextId + 1)
  }

  /** A fetch completes. When `fetchGitHubRepoInfo` yields a record, the new
      popup becomes current, is attached, and gets its `mouseout` listener on
      the link; when it yields `null`, `generatePopupDOM` throws and nothing
      else happens. A fetch that is not in flight changes nothing. */
  function OnFetchDone(st: State, f: nat, response: Response): (st': State)
    ensures f !in st.fetches ==> st' == st
    ensures f in st.fetches ==>
              && st'.fetches.Keys == st.fetches.Keys - {f}
              && (forall g :: g in st'.fetches ==> st'.fetches[g] == st.fetches[g])
              && st'.timers == st.timers && st'.popupTimeout == st.popupTimeout
    ensures f in st.fetches && FetchRepoInfo(response).None? ==>
              st' == st.(fetches := st.fetches - {f})
    ensures f in st.fetches && FetchRepoInfo(response).Some? ==>
              && st'.currentPopup == Some(st.nextId)
              && st'.attached == st.attached + {st.nextId}
              && st'.popups.Keys == st.popups.Keys + {st.nextId}
              && st'.popups[st.nextId] == Popup(st.fetches[f].id, FetchRepoInfo(response).value)
              && (forall p :: p in st.popups && p != st.nextId ==> st'.popups[p] == st.popups[p])
  {
    if f !in st.fetches then st
    else
      var fetches := st.fetches - {f};
      match FetchRepoInfo(response)
      case None => st.(fetches := fetches)
      case Some(info) =>
        var id := st.nextId;
        st.(fetches := fetches,
            currentPopup := Some(id),
            attached := st.attached + {id},
            popups := st.popups[id := Popup(st.fetches[f].id, info)],
            nextId := id + 1)
  }

  /** The `mouseout` listeners of element `e` run: every popup created for
      `e` is removed; other popups stay, and `currentPopup` still names
      whatever it named. */
  function OnMouseOut(st: State, e: nat): (st': State)
    ensures forall p :: p in st.attached && p in st.popups && st.popups[p].target != e ==> p in st'.attached
    ensures forall p :: p in st'.attached ==> p in st.attached && !(p in st.popups && st.popups[p].target == e)
    ensures st' == st.(attached := st'.attached)
  {
    st.(attached := set p | p in st.attached && !(p in st.popups && st.popups[p].target == e))
  }

  function Step(st: State, ev: Event): State {
    match ev
    case MouseOver(el) => OnMouseOver(st, el)
    case TimerFire(h) => OnTimerFire(st, h)
    case FetchDone(f, response) => OnFetchDone(st, f, response)
    case MouseOut(e) => OnMouseOut(st, e)
  }

  /** The state after a sequence of events, in order. */
  function Run(st: State, evs: seq<Event>): State
    decreases |evs|
  {
    if |evs| == 0 then st else Run(Step(st, evs[0]), evs[1..])
  }

  /** A hovered element that passes the hover test. */
  predicate IsRepoLink(el: Element) {
    Qualifies(el.tag, el.href)
  }

  /** Every pending timer and every fetch in flight belongs to an element
      satisfying `ok`. */
  predicate Targets(st: State, ok: Element -> bool) {
    && (forall h :: h in st.timers ==> ok(st.timers[h]))
    && (forall f :: f in st.fetches ==> ok(st.fetches[f]))
  }

  /** The bookkeeping that holds in every reachable state: the only pending
      timer is the one `popupTimeout` names, handles are below the counter,
      and the current and attached popups are popups that were created. */
  predicate Wellformed(st: State) {
    && (st.popupTimeout.Some? ==> st.popupTimeout.value < st.nextId)
    && (forall h :: h in st.timers ==> st.popupTimeout == Some(h))
    && (forall f :: f in st.fetches ==> f < st.nextId)
    && (forall p :: p in st.popups ==> p < st.nextId)
    && st.attached <= st.popups.Keys
    && (st.currentPopup.Some? ==> st.currentPopup.value in st.popups)
  }

  /** What holds in every reachable state: the bookkeeping above, and
      pending timers and fetches belong to qualifying links. */
  predicate Inv(st: State) {
    Wellformed(st) && Targets(st, IsRepoLink)
  }

  lemma InitInv()
    ensures Inv(Init)
  {
  }

  lemma MouseOverTargets(st: State, el: Element, ok: Element -> bool)
    requires Targets(st, ok) && (Qualifies(el.tag, el.href) ==> ok(el))
    ensures Targets(OnMouseOver(st, el), ok)
  {
  }

  lemma TimerFireTargets(st: State, h: nat, ok: Element -> bool)
    requires Targets(st, ok)
    ensures Targets(OnTimerFire(st, h), ok)
  {
  }

  lemma FetchDoneTargets(st: State, f: nat, response: Response, ok: Element -> bool)
    requires Targets(st, ok)
    ensures Targets(OnFetchDone(st, f, response), ok)
  {
  }

  lemma MouseOverInv(st: State, el: Element)
    requires Inv(st)
    ensures Inv(OnMouseOver(st, el))
  {
    MouseOverTargets(st, el, IsRepoLink);
  }

  lemma TimerFireInv(st: State, h: nat)
    requires Inv(st)
    ensures Inv(OnTimerFire(st, h))
  {
    TimerFireTargets(st, h, IsRepoLink);
  }

  lemma FetchDoneInv(st: State, f: nat, response: Response)
    requires Inv(st)
    ensures Inv(OnFetchDone(st, f, response))
  {
    FetchDoneTargets(st, f, response, IsRepoLink);
  }

  lemma MouseOutInv(st: State, e: nat)
    requires Inv(st)
    ensures Inv(OnMouseOut(st, e))
  {
  }

  /** Every event preserves the invariant. */
  lemma StepInv(st: State, ev: Event)
    requires Inv(st)
    ensures Inv(Step(st, ev))
  {
    match ev
    case MouseOver(el) => MouseOverInv(st, el);
    case TimerFire(h) => TimerFireInv(st, h);
    case FetchDone(f, response) => FetchDoneInv(st, f, response);
    case MouseOut(e) => MouseOutInv(st, e);
  }

  /** Every state reached from one satisfying the invariant satisfies it. */
  lemma {:induction false} RunInv(st: State, evs: seq<Event>)
    requires Inv(st)
    ensures Inv(Run(st, evs))
    decreases |evs|
  {
    if |evs| > 0 {
      StepInv(st, evs[0]);
      RunInv(Step(st, evs[0]), evs[1..]);
    }
  }

  /** At most one delay timer is ever pending. */
  lemma AtMostOneTimer(st: State)
    requires Inv(st)
    ensures |st.timers| <= 1
  {
    if st.popupTimeout.Some? {
      assert st.timers.Keys <= {st.popupTimeout.value};
      SubsetCard(st.timers.Keys, {st.popupTimeout.value});
    } else {
      assert st.timers.Keys == {};
    }
  }

  lemma SubsetCard(a: set<nat>, b: set<nat>)
    requires a <= b
    ensures |a| <= |b|
  {
    assert b == a + (b - a);
  }

  /** From a state satisfying the invariant, hovering a qualifying link
      leaves exactly one pending timer, set for that link. */
  lemma MouseOverSingleTimer(st: State, el: Element)
    requires Inv(st) && Qualifies(el.tag, el.href)
    ensures OnMouseOver(st, el).timers == map[st.nextId := el]
  {
    var st' := OnMouseOver(st, el);
    forall h | h in st.timers
      ensures Some(h) == st.popupTimeout
    {
    }
  }

  /** Debouncing: hovering one qualifying link and then another before the
      delay elapses cancels the first timer, so only the second link's timer
      is pending and firing the first handle later does nothing. */
  lemma HoverTwiceOneTimer(st: State, a: Element, b: Element)
    requires Inv(st) && IsRepoLink(a) && IsRepoLink(b)
    ensures var s2 := OnMouseOver(OnMouseOver(st, a), b);
            && s2.timers == map[st.nextId + 1 := b]
            && OnTimerFire(s2, st.nextId) == s2
  {
    var s1 := OnMouseOver(st, a);
    MouseOverSingleTimer(st, a);
    MouseOverInv(st, a);
    MouseOverSingleTimer(s1, b);
  }

  /** The fetch a pending timer starts names the owner and repository read
      off its link; neither is `undefined`, because the link passed the
      hover test. */
  lemma TimerFetchUrl(st: State, h: nat)
    requires Inv(st) && h in st.timers
    ensures OwnerRepo(st.timers[h].href).0.Some? && OwnerRepo(st.timers[h].href).1.Some?
    ensures RequestUrl(OnTimerFire(st, h).fetches[st.nextId])
            == ApiUrl(OwnerRepo(st.timers[h].href).0.value, OwnerRepo(st.timers[h].href).1.value)
  {
    OwnerRepoDefined(st.timers[h].href);
  }

  /** Removing a link's popups twice is the same as removing them once. */
  lemma MouseOutIdempotent(st: State, e: nat)
    ensures OnMouseOut(OnMouseOut(st, e), e) == OnMouseOut(st, e)
  {
  }

  /** Leaving the link right after its popup appears detaches the popup but
      leaves it current: `currentPopup` names a popup that is no longer in
      the document until the next timer fires. */
  lemma MouseOutAfterCreation(st: State, f: nat, response: Response)
    requires f in st.fetches && FetchRepoInfo(response).Some?
    ensures var created := OnFetchDone(st, f, response);
            var left := OnMouseOut(created, st.fetches[f].id);
            && left.currentPopup == Some(st.nextId)
            && st.nextId !in left.attached
  {
  }

  /** Hovering a qualifying link and letting its delay elapse, from a state
      with nothing pending: the fetch for the link is in flight and nothing
      is attached or pending. */
  lemma HoverAndWait(st: State, el: Element)
    requires IsRepoLink(el) && st.timers == map[] && st.attached == {}
    ensures var st' := Run(st, [MouseOver(el), TimerFire(st.nextId)]);
            && st'.timers == map[] && st'.attached == {}
            && st.nextId + 1 in st'.fetches
            && (forall f :: f in st.fetches ==> f in st'.fetches)
            && st'.nextId == st.nextId + 2
  {
    var s1 := OnMouseOver(st, el);
    assert s1.timers.Keys == {st.nextId} && s1.attached == {} && s1.currentPopup == st.currentPopup;
    var s2 := OnTimerFire(s1, st.nextId);
    assert s2.timers.Keys == {};
    RunCons(s1, TimerFire(st.nextId), []);
    RunCons(st, MouseOver(el), [TimerFire(st.nextId)]);
  }

  /** Two fetches in flight that both succeed both attach their popups. */
  lemma BothFetchesDone(st: State, f: nat, g: nat, response: Response)
    requires f in st.fetches && g in st.fetches && f != g && FetchRepoInfo(response).Some?
    ensures Run(st, [FetchDone(f, response), FetchDone(g, response)]).attached
            == st.attached + {st.nextId, st.nextId + 1}
  {
    var s1 := OnFetchDone(st, f, response);
    var s2 := OnFetchDone(s1, g, response);
    RunCons(s1, FetchDone(g, response), []);
    RunCons(st, FetchDone(f, response), [FetchDone(g, response)]);
  }

  /** The state after the events of `a` and then those of `b`. */
  lemma {:induction false} RunAppend(st: State, a: seq<Event>, b: seq<Event>)
    ensures Run(st, a + b) == Run(Run(st, a), b)
    decreases |a|
  {
    if |a| > 0 {
      assert (a + b)[1..] == a[1..] + b;
      RunAppend(Step(st, a[0]), a[1..], b);
    } else {
      assert a + b == b;
    }
  }

  /** The script does not keep to one popup at a time. Hovering the same
      link twice, with each delay elapsing before the first fetch returns,
      starts two fetches; when both succeed, both popups are attached. */
  lemma TwoPopupsCoexist(el: Element, response: Response)
    requires IsRepoLink(el) && FetchRepoInfo(response).Some?
    ensures var evs := [MouseOver(el), TimerFire(1), MouseOver(el), TimerFire(3),
                        FetchDone(2, response), FetchDone(4, response)];
            Run(Init, evs).attached == {5, 6}
  {
    var first := [MouseOver(el), TimerFire(1)];
    var second := [MouseOver(el), TimerFire(3)];
    var done := [FetchDone(2, response), FetchDone(4, response)];
    HoverAndWait(Init, el);
    var s2 := Run(Init, first);
    HoverAndWait(s2, el);
    var s4 := Run(s2, second);
    BothFetchesDone(s4, 2, 4, response);
    RunAppend(Init, first, second);
    RunAppend(Init, first + second, done);
    assert first + second + done == [MouseOver(el), TimerFire(1), MouseOver(el), TimerFire(3),
                                     FetchDone(2, response), FetchDone(4, response)];
  }

  lemma RunCons(st: State, ev: Event, evs: seq<Event>)
    ensures Run(st, [ev] + evs) == Run(Step(st, ev), evs)
  {
    assert ([ev] + evs)[1..] == evs;
  }
}

=== FILE: repo_info.dfy ===
/** `fetchGitHubRepoInfo`: the request URL built from an owner and a
    repository, and the normalisation of the API's answer into the record the
    popup displays (content.js). The network call itself is not modelled:
    its outcome is an input. */
module RepoInfo {
  import opened Wrappers
  import opened Strings
  import LinkMatch

  const ApiHost := "api.github.com"
  const ReposSegment := "repos"

  /** `https://api.github.com/repos`, the root of the repository endpoints.
      As in `LinkMatch.GitHubRoot`, the two slashes after the scheme are
      separate pieces for the proofs about `Split`. */
  const ApiRoot := LinkMatch.Scheme + "/" + "/" + ApiHost + "/" + ReposSegment
  const NoDescription := "No description available"

  /** The `owner` object of the API payload. */
  datatype ApiOwner = ApiOwner(login: Option<string>, avatarUrl: Option<string>)

  /** The fields of the API payload the script reads; `None` stands for a
      field that is `null` or absent. A primitive `owner` value reads as an
      owner with neither field. */
  datatype ApiRepo = ApiRepo(
    fullName: Option<string>,
    description: Option<string>,
    stargazersCount: Option<int>,
    owner: Option<ApiOwner>,
    pushedAt: Option<string>)

  /** What `response.json()` yields: a body that is not JSON (the promise
      rejects), a JSON `null` (reading a field of it throws), or a value whose
      fields are read (objects, and primitives, whose fields all read as
      absent). */
  datatype Body = Unparsable | JsonNull | JsonValue(repo: ApiRepo)

  /** The outcome of `fetch(url)`: the promise rejects, or a response with
      its `ok` flag and its body. */
  datatype Response = NetworkError | HttpResponse(ok: bool, body: Body)

  /** The record `fetchGitHubRepoInfo` returns. `lastCommit` keeps the raw
      `pushed_at` value; its locale formatting is not modelled. */
  datatype Info = Info(
    fullName: Option<string>,
    description: string,
    stars: Option<int>,
    authorLogin: Option<string>,
    authorAvatarUrl: Option<string>,
    lastCommit: Option<string>)

  /** JavaScript's `||` on the description: `null`, absent and the empty
      string are falsy and give way to the placeholder. */
  function DescriptionOrPlaceholder(d: Option<string>): (r: string)
    ensures d.Some? && d.value != "" ==> r == d.value
    ensures d.None? || d.value == "" ==> r == NoDescription
  {
    match d
    case Some(s) => if s != "" then s else NoDescription
    case None => NoDescription
  }

  /** Building the record from a parsed payload; reading `owner.login` of a
      missing owner throws, which the `catch` turns into `null`. */
  function Normalise(data: ApiRepo): Option<Info> {
    match data.owner
    case None => None
    case Some(owner) =>
      Some(Info(
        data.fullName,
        DescriptionOrPlaceholder(data.description),
        data.stargazersCount,
        owner.login,
        owner.avatarUrl,
        data.pushedAt))
  }

  /** The whole of `fetchGitHubRepoInfo` after the request is sent: a
      non-ok response, a rejected fetch, an unparsable body or a throwing
      field access all give `null` (`None`). */
  function FetchRepoInfo(response: Response): (r: Option<Info>)
    ensures r.Some? <==>
              response.HttpResponse? && response.ok && response.body.JsonValue?
              && response.body.repo.owner.Some?
    ensures r.Some? ==>
              var data := response.body.repo;
              && r.value.fullName == data.fullName
              && r.value.stars == data.stargazersCount
              && r.value.authorLogin == data.owner.value.login
              && r.value.authorAvatarUrl == data.owner.value.avatarUrl
              && r.value.lastCommit == data.pushedAt
              && (data.description.Some? && data.description.value != "" ==>
                    r.value.description == data.description.value)
              && (data.description.None? || data.description.value == "" ==>
                    r.value.description == NoDescription)
  {
    match response
    case NetworkError => None
    case HttpResponse(ok, body) =>
      if !ok then None
      else
        match body
        case Unparsable => None
        case JsonNull => None
        case JsonValue(data) => Normalise(data)
  }

  /** The request URL for an owner and a repository:
      `https://api.github.com/repos/<owner>/<repo>`. */
  function ApiUrl(owner: string, repo: string): string {
    ApiRoot + "/" + owner + "/" + repo
  }

  /** JavaScript's template-literal rendering of a possibly `undefined`
      string. */
  function Interpolate(v: Option<string>): string {
    match v
    case Some(s) => s
    case None => "undefined"
  }

  /** The request URL names the owner and repository it was built from:
      splitting it on `/` gives them back as entries 4 and 5, provided
      neither contains a `/`. */
  lemma ApiUrlRoundTrip(owner: string, repo: string)
    requires Free(owner, '/') && Free(repo, '/')
    ensures Split(ApiUrl(owner, repo), '/') == [LinkMatch.Scheme, "", ApiHost, ReposSegment, owner, repo]
  {
    assert Free(LinkMatch.Scheme, '/') && Free(ApiHost, '/') && Free(ReposSegment, '/');
    SplitUrl(LinkMatch.Scheme, ApiHost, ReposSegment, owner);
    SplitSnoc(LinkMatch.Scheme + "/" + "/" + ApiHost + "/" + ReposSegment + "/" + owner, repo, '/');
  }
}

=== FILE: strings.dfy ===
/** String helpers shared by the content script and the resizer script:
    splitting on a separator (and its inverse, joining), locating the last
    occurrence of a character, ASCII lower-casing, and decimal integers. */
module Strings {
  import opened Wrappers

  /** `c` does not occur in `s`. */
  predicate Free(s: string, c: char) {
    c !in s
  }

  predicate EndsWith(s: string, suffix: string) {
    |suffix| <= |s| && s[|s| - |suffix|..] == suffix
  }

  lemma FreeAppend(a: string, b: string, c: char)
    ensures Free(a + b, c) <==> Free(a, c) && Free(b, c)
  {
  }

  /** Index of the last occurrence of `c` in `s`, if any. */
  function LastIndexOf(s: string, c: char): (r: Option<nat>)
    ensures r.None? <==> Free(s, c)
    ensures r.Some? ==> r.value < |s| && s[r.value] == c
  {
    if |s| == 0 then None
    else if s[|s| - 1] == c then Some(|s| - 1)
    else
      assert s == s[..|s| - 1] + [s[|s| - 1]];
      LastIndexOf(s[..|s| - 1], c)
  }

  /** Nothing after the last occurrence is `c`. */
  lemma {:induction false} LastIndexOfLast(s: string, c: char)
    requires LastIndexOf(s, c).Some?
    ensures Free(s[LastIndexOf(s, c).value + 1..], c)
    decreases |s|
  {
    if s[|s| - 1] != c {
      var s' := s[..|s| - 1];
      LastIndexOfLast(s', c);
      var k := LastIndexOf(s', c).value;
      assert s[k + 1..] == s'[k + 1..] + [s[|s| - 1]];
    }
  }

  /** The last occurrence is determined by the text after it. */
  lemma {:induction false} LastIndexOfAt(a: string, b: string, c: char)
    requires Free(b, c)
    ensures LastIndexOf(a + [c] + b, c) == Some(|a|)
    decreases |b|
  {
    var s := a + [c] + b;
    if |b| == 0 {
      assert s[|s| - 1] == c;
    } else {
      assert s[|s| - 1] == b[|b| - 1];
      assert s[..|s| - 1] == a + [c] + b[..|b| - 1];
      assert b == b[..|b| - 1] + [b[|b| - 1]];
      LastIndexOfAt(a, b[..|b| - 1], c);
    }
  }

  /** Appending text without `c` does not move the last occurrence. */
  lemma {:induction false} LastIndexOfAppend(a: string, b: string, c: char)
    requires Free(b, c)
    ensures LastIndexOf(a + b, c) == LastIndexOf(a, c)
    decreases |b|
  {
    if |b| > 0 {
      var s := a + b;
      assert s[|s| - 1] == b[|b| - 1];
      assert s[..|s| - 1] == a + b[..|b| - 1];
      assert b == b[..|b| - 1] + [b[|b| - 1]];
      LastIndexOfAppend(a, b[..|b| - 1], c);
    } else {
      assert a + b == a;
    }
  }

  /** The pieces on either side of a single character are recovered by
      slicing. */
  lemma SliceAround(a: string, b: string, c: char)
    ensures (a + [c] + b)[..|a|] == a
    ensures (a + [c] + b)[..|a| + 1] == a + [c]
    ensures (a + [c] + b)[|a| + 1..] == b
  {
  }

  lemma EndsWithConcat(x: string, t: string)
    ensures EndsWith(x + t, t)
  {
    assert (x + t)[|x|..] == t;
  }

  lemma EndsWithAppend(x: string, t: string, u: string)
    requires EndsWith(x, t)
    ensures EndsWith(x + u, t + u)
  {
    assert (x + u)[|x + u| - |t + u|..] == x[|x| - |t|..] + u;
  }

  lemma EndsWithSplit(s: string, t: string)
    requires EndsWith(s, t)
    ensures s == s[..|s| - |t|] + t
  {
  }

  /** The inverse of `Split`: the parts with `c` between consecutive ones. */
  function Join(parts: seq<string>, c: char): string
    requires |parts| >= 1
  {
    if |parts| == 1 then parts[0] else parts[0] + [c] + Join(parts[1..], c)
  }

  predicate AllFree(parts: seq<string>, c: char) {
    forall i :: 0 <= i < |parts| ==> Free(parts[i], c)
  }

  /** JavaScript's `String.prototype.split` with a one-character separator:
      the pieces between occurrences of `c`, in order, empty pieces kept. */
  function Split(s: string, c: char): (parts: seq<string>)
    ensures |parts| >= 1
    decreases |s|
  {
    if |s| == 0 then [""]
    else
      var rest := Split(s[1..], c);
      if s[0] == c then [""] + rest else [[s[0]] + rest[0]] + rest[1..]
  }

  lemma JoinCons(p: string, q: seq<string>, c: char)
    requires |q| >= 1
    ensures Join([p] + q, c) == p + [c] + Join(q, c)
  {
    assert ([p] + q)[1..] == q;
  }

  /** Prefixing the first piece prefixes the joined text. */
  lemma JoinPrepend(ch: char, rest: seq<string>, c: char)
    requires |rest| >= 1
    ensures Join([[ch] + rest[0]] + rest[1..], c) == [ch] + Join(rest, c)
  {
    var parts := [[ch] + rest[0]] + rest[1..];
    if |rest| > 1 {
      assert parts[1..] == rest[1..];
    }
  }

  /** No piece of a split contains the separator. */
  lemma {:induction false} SplitPiecesFree(s: string, c: char)
    ensures AllFree(Split(s, c), c)
    decreases |s|
  {
    if |s| > 0 {
      var rest := Split(s[1..], c);
      SplitPiecesFree(s[1..], c);
      if s[0] != c {
        assert Free(rest[0], c);
        assert Free([s[0]] + rest[0], c);
      }
    }
  }

  /** Joining undoes splitting. */
  lemma {:induction false} JoinSplit(s: string, c: char)
    ensures Join(Split(s, c), c) == s
    decreases |s|
  {
    if |s| > 0 {
      var rest := Split(s[1..], c);
      JoinSplit(s[1..], c);
      if s[0] == c {
        JoinCons("", rest, c);
      } else {
        JoinPrepend(s[0], rest, c);
      }
      assert s == [s[0]] + s[1..];
    }
  }

  /** A separator splits the text into the pieces on either side of it. */
  lemma {:induction false} SplitAround(a: string, b: string, c: char)
    ensures Split(a + [c] + b, c) == Split(a, c) + Split(b, c)
    decreases |a|
  {
    var s := a + [c] + b;
    if |a| == 0 {
      assert s[1..] == b;
    } else {
      assert s[1..] == a[1..] + [c] + b;
      SplitAround(a[1..], b, c);
      SplitStep(s, c);
      SplitStep(a, c);
      var sa := Split(a[1..], c);
      var sb := Split(b, c);
      if a[0] != c {
        GlueFirst(a[0], sa, sb);
      } else {
        assert [""] + (sa + sb) == ([""] + sa) + sb;
      }
    }
  }

  /** Extending the first piece commutes with appending further pieces. */
  lemma GlueFirst(ch: char, sa: seq<string>, sb: seq<string>)
    requires |sa| >= 1
    ensures [[ch] + (sa + sb)[0]] + (sa + sb)[1..] == ([[ch] + sa[0]] + sa[1..]) + sb
  {
    assert (sa + sb)[0] == sa[0];
    assert (sa + sb)[1..] == sa[1..] + sb;
  }

  /** One step of `Split`, as an equation. */
  lemma SplitStep(s: string, c: char)
    requires |s| > 0
    ensures s[0] == c ==> Split(s, c) == [""] + Split(s[1..], c)
    ensures s[0] != c ==> Split(s, c) == [[s[0]] + Split(s[1..], c)[0]] + Split(s[1..], c)[1..]
  {
  }

  lemma SplitFree(s: string, c: char)
    requires Free(s, c)
    ensures Split(s, c) == [s]
    decreases |s|
  {
    if |s| > 0 {
      assert s[0] in s;
      SplitFree(s[1..], c);
      assert [s[0]] + s[1..] == s;
    }
  }

  /** A separator after a piece without it splits off exactly that piece. */
  lemma SplitCons(a: string, s: string, c: char)
    requires Free(a, c)
    ensures Split(a + [c] + s, c) == [a] + Split(s, c)
  {
    SplitAround(a, s, c);
    SplitFree(a, c);
  }

  /** Splitting undoes joining whenever no part contains the separator. */
  lemma {:induction false} SplitJoin(parts: seq<string>, c: char)
    requires |parts| >= 1
    requires AllFree(parts, c)
    ensures Split(Join(parts, c), c) == parts
    decreases |parts|
  {
    if |parts| == 1 {
      SplitFree(parts[0], c);
    } else {
      assert Free(parts[0], c);
      SplitJoin(parts[1..], c);
      SplitCons(parts[0], Join(parts[1..], c), c);
      assert [parts[0]] + parts[1..] == parts;
    }
  }

  /** A last piece without the separator is split off whole. */
  lemma SplitSnoc(a: string, b: string, c: char)
    requires Free(b, c)
    ensures Split(a + [c] + b, c) == Split(a, c) + [b]
  {
    SplitAround(a, b, c);
    SplitFree(b, c);
  }

  /** A trailing separator adds an empty last piece. */
  lemma SplitTrailing(a: string, c: char)
    ensures Split(a + [c], c) == Split(a, c) + [""]
  {
    SplitAround(a, "", c);
    assert a + [c] + "" == a + [c];
  }

  /** How a URL of the shape `<sc>//<host>/<a>/<b>` splits on `/` when no
      piece contains a `/`: the empty piece between the two slashes is kept. */
  lemma SplitUrl(sc: string, host: string, a: string, b: string)
    requires Free(sc, '/') && Free(host, '/') && Free(a, '/') && Free(b, '/')
    ensures Split(sc + "/" + "/" + host + "/" + a + "/" + b, '/') == [sc, "", host, a, b]
  {
    SplitFree(sc, '/');
    SplitTrailing(sc, '/');
    assert Split(sc + "/", '/') == [sc, ""];
    SplitSnoc(sc + "/", host, '/');
    assert Split(sc + "/" + "/" + host, '/') == [sc, "", host];
    SplitSnoc(sc + "/" + "/" + host, a, '/');
    assert Split(sc + "/" + "/" + host + "/" + a, '/') == [sc, "", host, a];
    SplitSnoc(sc + "/" + "/" + host + "/" + a, b, '/');
  }

  /** Lower-cases ASCII letters and leaves every other character alone. */
  function ToLowerChar(ch: char): char {
    if 'A' <= ch <= 'Z' then (ch as int + 32) as char else ch
  }

  function ToLower(s: string): string {
    if |s| == 0 then "" else [ToLowerChar(s[0])] + ToLower(s[1..])
  }

  /** The only strings that lower-case to "a" are "a" and "A". */
  lemma ToLowerIsA(s: string)
    ensures ToLower(s) == "a" <==> s == "a" || s == "A"
  {
    if ToLower(s) == "a" {
      assert |s| == 1;
      assert ToLower(s)[0] == ToLowerChar(s[0]) == 'a';
      assert s == [s[0]];
    }
  }

  // Decimal integers, as Python's `str(int)` writes them and `int(str)` reads them.

  predicate IsDigit(ch: char) {
    '0' <= ch <= '9'
  }

  predicate IsDigits(s: string) {
    |s| >= 1 && forall i :: 0 <= i < |s| ==> IsDigit(s[i])
  }

  function DigitChar(d: nat): char
    requires d < 10
  {
    (48 + d) as char
  }

  function DigitOf(ch: char): nat
    requires IsDigit(ch)
  {
    ch as int - 48
  }

  /** The number a string of decimal digits denotes. */
  function DigitsValue(s: string): nat
    requires forall i :: 0 <= i < |s| ==> IsDigit(s[i])
  {
    if |s| == 0 then 0
    else DigitsValue(s[..|s| - 1]) * 10 + DigitOf(s[|s| - 1])
  }

  /** Shortest decimal spelling of a natural number. */
  function NatToString(n: nat): (s: string)
    ensures IsDigits(s)
    ensures s[0] == '0' ==> n == 0
  {
    if n < 10 then [DigitChar(n)] else NatToString(n / 10) + [DigitChar(n % 10)]
  }

  /** Python's `str` of an integer: a minus sign for negatives, then digits. */
  function IntToString(n: int): (s: string)
    ensures |s| >= 1
    ensures forall i :: 0 <= i < |s| ==> IsDigit(s[i]) || s[i] == '-'
    ensures s[0] == '-' <==> n < 0
    ensures var digits := if n < 0 then s[1..] else s;
              IsDigits(digits) && (digits[0] == '0' ==> n == 0)
  {
    if n < 0 then "-" + NatToString(-n) else NatToString(n)
  }

  /** Python's `int` on a decimal string: an optional sign followed by one or
      more ASCII digits; anything else is a `ValueError` (`None`). */
  function ParseInt(s: string): (r: Option<int>)
    ensures r.Some? ==> |s| >= 1
    ensures r.Some? <==>
              || IsDigits(s)
              || (|s| >= 1 && (s[0] == '-' || s[0] == '+') && IsDigits(s[1..]))
  {
    if |s| >= 1 && (s[0] == '-' || s[0] == '+') then
      if IsDigits(s[1..]) then
        Some(if s[0] == '-' then 0 - DigitsValue(s[1..]) else DigitsValue(s[1..]))
      else None
    else if IsDigits(s) then Some(DigitsValue(s))
    else None
  }

  lemma {:induction false} DigitsValueOfNatToString(n: nat)
    ensures DigitsValue(NatToString(n)) == n
  {
    if n >= 10 {
      var s := NatToString(n);
      assert s[..|s| - 1] == NatToString(n / 10);
      DigitsValueOfNatToString(n / 10);
    }
  }

  /** Reading back what `IntToString` wrote gives the same integer. */
  lemma ParseIntToString(n: int)
    ensures ParseInt(IntToString(n)) == Some(n)
  {
    if n < 0 {
      var s := IntToString(n);
      assert s[1..] == NatToString(-n);
      DigitsValueOfNatToString(-n);
    } else {
      DigitsValueOfNatToString(n);
    }
  }
}

=== FILE: wrappers.dfy ===
/** Failure-carrying wrappers used throughout the model. */
module Wrappers {

  /** A value that may be missing: JavaScript's `null`/`undefined`, or an
      operation that yields nothing. */
  datatype Option<+T> = None | Some(value: T)

  /** Either a value or an error; models a raised exception. */
  datatype Result<+R, +E> = Ok(value: R) | Err(error: E)
}
